=== FILE: README.md ===
# Role and sub-event eligibility of the SRS applications grid, in Dafny

This project models the part of the SRS seminar registration system that
decides whether a participant may change a registration. A participant holds
roles and has applications. Each application lists sub-events. The
applications grid lets them do two things:

* **add** sub-events as a new, non-first application;
* **edit** their roles and the sub-events of an application.

Both flows run the same eligibility predicates first:

* capacity: a full role or sub-event blocks unless the user already has it;
* registration window: applies to roles only;
* mutual incompatibility;
* transitive requirements.

The first failing check aborts the flow with an error. When every check
passes, the flow changes the user and the applications by fixed rules.

A second, smaller part models a CMS `Page`:

* its defaults;
* its role set and role-based visibility;
* the area-filtered, position-ordered view of its contents.

Modules (one per file):

* `Wrappers` (`wrappers.dfy`): `Option` and `Result`.
* `Catalog` (`catalog.dfy`): ids, roles, sub-events and the repository listings
  (`findRolesByIds`, `findAllExplicitOrderedByName`,
  `findAllRegisterableNowOrUsersOrderedByName`, `countExplicitSubevents`).
  Entities refer to each other by id. The incompatibility and requirement
  graphs are adjacency lists.
* `Closure` (`closure.dfy`): `getRequired*Transitive` as a saturation that
  terminates even on cyclic requirement graphs. The result is proved to be
  the least closed set that holds the direct requirements.
* `Eligibility` (`eligibility.dfy`): the `check*` predicates and the loop over
  the name-ordered catalog that stops at the first failing item.
* `Messages` (`messages.dfy`): the lists of names that go into the error
  messages.
* `Registration` (`registration.dfy`): `User`, `Application`, the state, and
  `Add` / `Edit` as functions returning a `Result`.
* `RegistrationProperties` (`registration_properties.dfy`): properties that
  relate a flow to the state it leaves.
* `Cms` (`cms.dfy`): the page entity.

Some values come from code outside this model. They become fields of the
entity snapshot or parameters:

* `countUnoccupiedInRole` / `countUnoccupiedInSubevent` are the `unoccupied`
  field.
* `isRegisterableNow` and `isApprovedAfterRegistration` are role flags. They are
  fixed at the time of the request.
* `countFee` is a function-typed parameter. Its third argument is `FALSE` in
  add. In edit it is the default, which this model takes to be `TRUE`
  (`ApplicationService` is not part of this model).
* `findLastApplicationOrder`, `countMaturityDate`, `generateVariableSymbol`,
  the current time and the id the persistence layer gives a new application
  are parameters.
* `Content::$areas` is a parameter of the page queries.
* The user's sub-events are the union of the sub-events of all the user's
  applications. `User` itself is not part of this model.

## Model

| member | source | states |
|---|---|---|
| Eligibility.CheckRolesCapacities | app/WebModule/components/ApplicationsGridControl.php:500-509 | fails exactly when some selected role has a limited capacity, fewer than one unoccupied place, and is not held by the user |
| Eligibility.CheckSubeventsCapacities | app/WebModule/components/ApplicationsGridControl.php:568-577 | fails exactly when some selected sub-event has a limited capacity, no free place, and is not already one of the user's sub-events |
| Eligibility.CheckCapacities | app/WebModule/components/ApplicationsGridControl.php:502-507 | the shared loop stops at the first blocking item, so it is false iff some selected item is full and not held |
| Eligibility.HeldNeverBlocks | app/WebModule/components/ApplicationsGridControl.php:504 | a selection the user already holds passes however full its items are |
| Eligibility.UnlimitedNeverBlocks | app/WebModule/components/ApplicationsGridControl.php:571 | items of unlimited capacity always pass |
| Eligibility.CapacitiesMonotoneInHeld | app/WebModule/components/ApplicationsGridControl.php:572 | holding more items never makes the capacity check fail |
| Eligibility.CheckRolesRegisterable | app/WebModule/components/ApplicationsGridControl.php:554-561 | fails exactly when some selected role is closed for registration now and not held by the user |
| Eligibility.ContainsAny | app/WebModule/components/ApplicationsGridControl.php:522-525 | the early-return loop answers whether any listed id is selected |
| Eligibility.CheckIncompatible | app/WebModule/components/ApplicationsGridControl.php:517-528 | true for an unselected item; for a selected one, true iff none of its incompatible items is selected |
| Eligibility.IncompatiblePairFails | app/WebModule/components/ApplicationsGridControl.php:585-596 | if A lists B as incompatible and both are selected, testing A fails |
| Eligibility.MutualIncompatibilityFailsBothWays | app/WebModule/components/ApplicationsGridControl.php:590-593 | a pair that lists each other is refused from either side |
| Eligibility.IncompatibleEverywhereIff | app/WebModule/components/ApplicationsGridControl.php:383-404 | every catalog item passes iff no selected item lists a selected item as incompatible |
| Eligibility.CheckRequired | app/WebModule/components/ApplicationsGridControl.php:536-547 | true for an unselected item; for a selected one, true iff its whole transitive requirement set is selected, which includes its direct requirements |
| Eligibility.RequiredMonotone | app/WebModule/components/ApplicationsGridControl.php:604-615 | adding items never turns a passing requirement check of a selected item into a failing one |
| Eligibility.RequiredChainFails | app/WebModule/components/ApplicationsGridControl.php:541-544 | if A requires B and B requires C, selecting A without C fails |
| Eligibility.RequiredEverywhereIff | app/WebModule/components/ApplicationsGridControl.php:406-425 | every catalog item passes iff the selection holds the direct requirements of each of its members |
| Eligibility.GuardsAreRedundant | app/WebModule/components/ApplicationsGridControl.php:225-247 | the `count(...) > 0` guards never change the result: an item without incompatible or required items passes |
| Eligibility.ItemViolation | app/WebModule/components/ApplicationsGridControl.php:225-247 | one item fails iff it does not pass both checks, and the failure is reported as an incompatibility exactly when the incompatibility check fails (that test runs first) |
| Eligibility.FirstViolation | app/WebModule/components/ApplicationsGridControl.php:223-266 | reports the first catalog item that fails, which check it failed (incompatibility before requirements), and that all earlier items pass; none iff every item passes |
| Closure.Saturate | app/WebModule/components/ApplicationsGridControl.php:246 | saturation terminates on any graph, cycles included, and returns a closed superset of its start within the edge targets |
| Closure.RequiredTransitive | app/WebModule/components/ApplicationsGridControl.php:541 | the transitive requirements contain the direct ones and are closed under requirement |
| Closure.SaturateLeast | app/WebModule/components/ApplicationsGridControl.php:609 | saturation adds nothing that a closed bound lacks |
| Closure.RequiredTransitiveLeast | app/WebModule/components/ApplicationsGridControl.php:351 | the transitive requirements are the least closed set holding the direct ones |
| Closure.RequiredChain | app/WebModule/components/ApplicationsGridControl.php:406 | a requirement of a requirement is a requirement |
| Closure.RequiredTransitiveGrows | app/WebModule/components/ApplicationsGridControl.php:246 | the requirements of a requirement are among the requirements |
| Catalog.FindByIds | app/WebModule/components/ApplicationsGridControl.php:212 | `findSubeventsByIds` / `findRolesByIds` (also at 314 and 375): exactly the requested ids that exist in the catalog; unknown ids are dropped |
| Catalog.ExplicitSubevents | app/WebModule/components/ApplicationsGridControl.php:223 | `findAllExplicitOrderedByName` (also at 383): exactly the explicit sub-events of the catalog listing |
| Catalog.ExplicitSubeventsKeepNameOrder | app/WebModule/components/ApplicationsGridControl.php:223 | the explicit sub-events are listed in catalog name order: of two explicit sub-events, the one earlier in the catalog comes earlier in the listing, so the scan at 223 and 383 meets them in name order |
| Catalog.RegisterableNowOrHeld | app/WebModule/components/ApplicationsGridControl.php:327 | `findAllRegisterableNowOrUsersOrderedByName`: exactly the roles of the catalog listing that are open for registration now or held by the user |
| Catalog.RegisterableNowOrHeldKeepsNameOrder | app/WebModule/components/ApplicationsGridControl.php:327 | those roles are listed in catalog name order: of two listed roles, the one earlier in the catalog comes earlier in the listing |
| Catalog.HasExplicitSubeventsIffListed | app/WebModule/components/ApplicationsGridControl.php:374-383 | `countExplicitSubevents() > 0` (also at 449) holds exactly when the explicit sub-event listing is non-empty |
| Catalog.FilterFirst | app/WebModule/components/ApplicationsGridControl.php:223 | the name-ordered listings keep catalog order: the first accepted id comes first |
| Catalog.FilterKeepsOrder | app/WebModule/components/ApplicationsGridControl.php:223 | the name-ordered listings keep catalog order: any two accepted ids appear in the listing in their catalog order |
| Messages.IncompatibleNames | app/WebModule/components/ApplicationsGridControl.php:230-237 | the list of a sub-event's incompatible sub-events (also at 390-397): empty when there are none, otherwise it starts with the first one's name |
| Messages.RequiredNames | app/WebModule/components/ApplicationsGridControl.php:252-258 | the list of an item's transitive requirements (also at 357-363 and 412-418): empty when the item requires nothing in the catalog |
| Messages.RequiredNamesStartWithFirst | app/WebModule/components/ApplicationsGridControl.php:252-258 | the requirements list starts with the name of the first required item in catalog order |
| Messages.IncompatibleRoleNamesAsWritten | app/WebModule/components/ApplicationsGridControl.php:334-342 | the role list as the code builds it: empty when no incompatible role is open now; once `$first` is cleared, the next open role is preceded by ", " even when no name came before |
| Messages.JoinNames | app/WebModule/components/ApplicationsGridControl.php:228-237 | the `$first` join puts the first name first, with no separator before it |
| Messages.JoinNamesNotFirst | app/WebModule/components/ApplicationsGridControl.php:250-258 | joining after the first name is the full join with one leading ", " |
| Messages.IncompatibleRoleNamesDiscrepancy | app/WebModule/components/ApplicationsGridControl.php:332-342 | the role list as written equals the intended list, except for a leading ", " when the first incompatible role is closed and a later one is open |
| Messages.LeadingSeparatorExample | app/WebModule/components/ApplicationsGridControl.php:334-341 | with incompatible roles A (closed) and B (open), the list as written is ", B" where "B" is meant |
| Messages.IncompatibleRoleNamesStartWithName | app/WebModule/components/ApplicationsGridControl.php:335-340 | the corrected list starts with the name of the first open incompatible role |
| Registration.UserSubevents | app/WebModule/components/ApplicationsGridControl.php:213 | a sub-event belongs to the user iff one of the user's applications has it |
| Registration.StateForFee | app/WebModule/components/ApplicationsGridControl.php:278 | the state is PAID exactly when the fee is 0, else WAITING_FOR_PAYMENT |
| Registration.SubeventError | app/WebModule/components/ApplicationsGridControl.php:226-243 | the error names the failing sub-event and the check it failed |
| Registration.RoleError | app/WebModule/components/ApplicationsGridControl.php:330-349 | the error names the failing role and the check it failed |
| Registration.ValidateSubevents | app/WebModule/components/ApplicationsGridControl.php:218-266 | a capacity error iff the new selection does not fit; no error iff the capacity and every explicit sub-event's checks pass; any error is one of the three sub-event errors |
| Registration.ValidateSubeventsNamesFirstFailure | app/WebModule/components/ApplicationsGridControl.php:223-247 | an incompatibility or requirement error names the first explicit sub-event, in name order, that fails, and the check it fails |
| Registration.ValidateRoles | app/WebModule/components/ApplicationsGridControl.php:317-371 | capacity is checked first, then the registration window; no error iff capacity, window and the checks of every role open now or held all pass |
| Registration.ValidateRolesNamesFirstFailure | app/WebModule/components/ApplicationsGridControl.php:322-371 | an incompatibility or requirement error names the first role open now or held, in name order, that fails, and the check it fails |
| Registration.Add | app/WebModule/components/ApplicationsGridControl.php:210-280 | capacity is checked on the selection only and compatibility on its union with the user's sub-events. Success iff both pass, and any error is the one the sub-event validator reports. It adds exactly one application: the selected sub-events, fee from `countFee(roles, selection, FALSE)`, order last+1, not first, PAID iff fee is 0 |
| Registration.ApprovedAfterEdit | app/WebModule/components/ApplicationsGridControl.php:430-438 | approval is false iff some selected role is new to the user and not approved after registration |
| Registration.ApplyEdit | app/WebModule/components/ApplicationsGridControl.php:443-453 | roles replaced and approval recomputed. A missing application is an error that carries the already saved user: same id, the selected roles, the recomputed approval. Otherwise the application's sub-events, fee and state are replaced and nothing else changes |
| Registration.EditSubevents | app/WebModule/components/ApplicationsGridControl.php:374-453 | without explicit sub-events the outcome is `ApprovalUndefined`. A failing sub-event check gives the validator's error. Once every check passes, the outcome is that of `ApplyEdit`, including the missing-application error. It never reports a role capacity or window error |
| Registration.Edit | app/WebModule/components/ApplicationsGridControl.php:312-453 | role capacity errors and window errors come first and exactly when those checks fail, and a failing role check gives the role validator's error. Success iff all role checks and all sub-event checks pass, explicit sub-events exist and the application exists. Once every check passes, the outcome is that of `ApplyEdit` on the resolved selections, so a missing application gives the error carrying the saved user |
| RegistrationProperties.AddExtendsUserSubevents | app/WebModule/components/ApplicationsGridControl.php:212-215 | after add, the user's sub-events are the old ones plus the selection, and that union passes every explicit check |
| RegistrationProperties.AddKeepsOrdersUnique | app/WebModule/components/ApplicationsGridControl.php:274 | the new order is above every existing one, so order numbers stay unique |
| RegistrationProperties.AliasedUnionDisablesCapacityCheck | app/WebModule/components/ApplicationsGridControl.php:213-218 | if the union were built inside the user's own collection before the capacity check, that check could never fail |
| RegistrationProperties.RoleChecksCoverEveryRole | app/WebModule/components/ApplicationsGridControl.php:322-371 | the scan covers only roles open now or held, yet once the window check and the scan pass (both needed for edit to succeed) every catalog role passes against the selection |
| RegistrationProperties.EditApprovesKeptRoles | app/WebModule/components/ApplicationsGridControl.php:430-438 | keeping only roles already held yields approved = true, whatever the previous flag was |
| RegistrationProperties.EditOutcome | app/WebModule/components/ApplicationsGridControl.php:430-453 | after a successful edit the user's roles are exactly the requested catalog roles, approval is false iff a newly gained role needs approval, the application existed, and every other application is unchanged |
| RegistrationProperties.EditFeeMatchesSelection | app/WebModule/components/ApplicationsGridControl.php:443-452 | after edit the application holds exactly the requested catalog sub-events, the fee is `countFee` of the user's new roles and those sub-events, PAID iff the fee is 0, and its other fields are unchanged |
| Cms.NewPage | app/model/CMS/Page.php:77-83 | a new page has no roles and no contents, position 0, and is not public |
| Cms.NewPageIsEmpty | app/model/CMS/Page.php:47-83 | a new page is visible to no role list and has no content in any known area |
| Cms.SetRoles | app/model/CMS/Page.php:176-181 | the roles become exactly the given ones and nothing else changes |
| Cms.SetRolesForgetsEarlierRoles | app/model/CMS/Page.php:178 | visibility after setting roles does not depend on the earlier roles |
| Cms.AddRole | app/model/CMS/Page.php:186-189 | appends exactly the given role and leaves the rest unchanged |
| Cms.AddRoleGrantsOnlyMore | app/model/CMS/Page.php:188 | after adding a role the page is visible to its name, to everyone who saw it before, and to no one else |
| Cms.HasRoleNamed | app/model/CMS/Page.php:232-235 | the inner loop answers whether some role has the given name |
| Cms.IsAllowedForRoles | app/model/CMS/Page.php:229-238 | true iff some given name equals the name of one of the page's roles; false for an empty list |
| Cms.InsertByPosition | app/model/CMS/Page.php:205 | inserting into a position-sorted list keeps it sorted and adds exactly one element |
| Cms.SortByPosition | app/model/CMS/Page.php:203-206 | the result is sorted by ascending position and is a permutation of the input |
| Cms.InArea | app/model/CMS/Page.php:204 | keeps exactly the contents of the area, with their multiplicities |
| Cms.GetContents | app/model/CMS/Page.php:197-207 | no area gives all contents. An unknown area is an error. Otherwise the result holds exactly the area's contents, as a permutation, sorted by position |
| Cms.HasContents | app/model/CMS/Page.php:215-222 | an unknown area is an error; otherwise true iff some content is in the area |
| Cms.HasContentsIffContentsNonEmpty | app/model/CMS/Page.php:197-222 | both queries refuse the same areas, and `hasContents` is true iff `getContents` of the area is non-empty |

## Findings

| source | as written | input that shows it | evidently intended | confidence | as-written member | corrected member |
|---|---|---|---|---|---|---|
| app/WebModule/components/ApplicationsGridControl.php:334-342 | `$first = FALSE` runs after every incompatible role, also after a role that is left out because it is closed for registration | incompatible roles [A closed, B open]: the list reads ", B" | the names of the open incompatible roles joined with ", ", here "B" | high (not executed) | Messages.LeadingSeparatorExample | Messages.IncompatibleRoleNamesStartWithName |

`Messages.IncompatibleRoleNamesAsWritten` is the list as the source builds
it. `Messages.IncompatibleRoleNamesDiscrepancy` relates it to the corrected
`Messages.IncompatibleRoleNames` for every input. The edit flow's
`Registration.RoleError` uses the corrected list.

## Behaviour worth knowing

These are modelled as written and stated in contracts or lemmas. They are not corrected.

* In add, `$this->user->getSubevents()` is extended in place with the
  selection (lines 213-215). `User::getSubevents` is not part of this model.
  The model reads it as a fresh collection, so the capacity check sees the
  user's previous sub-events. If it returned the user's own collection, the
  capacity check would run after the selection had been added.
  `AliasedUnionDisablesCapacityCheck` shows that this check could then never
  fail.
* In edit, `$approved` and `$selectedSubevents` are assigned only when
  explicit sub-events exist (lines 374-439). They are read at lines 444 and
  447 regardless. Without explicit sub-events the model returns the explicit
  outcome `ApprovalUndefined` instead of reading an unassigned variable
  (the contracts of `EditSubevents` and `Edit`).
* Edit starts from `$approved = TRUE` and never reads the user's current flag.
  A user awaiting approval who resubmits only roles already held becomes
  approved (`EditApprovesKeptRoles`).
* Edit saves the user before it looks up the application (lines 443-448), so
  edit is not atomic: for an unknown application id the error
  `ApplicationNotFound` carries the user that was already saved (the
  contract of `ApplyEdit`).
* Edit does not check that application `$id` belongs to the acting user. The
  model does not check it either: the success condition in `Edit`'s contract
  does not mention the application's owner.

## Left out

- Registration.RoleError: the incompatible-roles list it hands to the translator is the corrected one (`Messages.IncompatibleRoleNames`), not the list as lines 334-342 build it. For incompatible roles [A closed, B open] the code produces ", B" and the model produces "B". The code as written is `Messages.IncompatibleRoleNamesAsWritten`, and `Messages.IncompatibleRoleNamesDiscrepancy` says exactly where the two differ.
- Cms.IsAllowedForRoles: compares role names with exact string equality. Page.php:233 uses PHP's loose `==`, which also treats numeric strings as equal when their numeric values match ("1" and "01", "10" and "1e1"). For such names the source answers true where the model answers false.
- Cms.HasRoleNamed: the inner loop of `isAllowedForRoles`, with the same exact-equality comparison in place of PHP's loose `==`.
- Cms.SetRoles: takes the new roles as a value. In the source, `clear()` (Page.php:178) runs before the loop over `$roles`. So passing the page's own role collection, as in `setRoles($page->getRoles())`, leaves the page with no roles. A value model has no aliasing, so it keeps them.

- Translator, flash messages, `redirect`, the DataGrid and templates: presentation only. A redirect after a failed check is an error result.
- Doctrine persistence (`save`, `findById`, `createQueryBuilder`), `updateUserPrograms`, `authenticator->updateRoles` and the commented-out mail code: I/O and side effects whose code is not part of this model.
- `countFee`, `countMaturityDate`, `generateVariableSymbol`, `findLastApplicationOrder`, `countUnoccupiedIn*`, `isRegisterableNow` and `isApprovedAfterRegistration`: their code is not part of this model. Their results are parameters or entity fields.
- `Closure.RequiredTransitive`: the code of `getRequired*Transitive` is not part of this model. It is modelled as the items reachable by one or more requirement edges. The error messages list them in catalog name order, because the source's iteration order is not visible.
- `Catalog.FindByIds`: keeps duplicate requested ids. The database query would return each entity once. No check depends on multiplicity.
- `Cms.SortByPosition`: keeps equal positions in collection order. Doctrine's sort order for ties is not specified.
- Concurrency of capacity checks across requests: the source has no locking, and the model is single-request.
- `Application::getFeeWords` (a foreign number-to-words call and an encoding conversion), plain getters and setters, and `Page::getRolesText`: no logic beyond field access and formatting.
- Application states other than PAID and WAITING_FOR_PAYMENT are represented by one `Cancelled` value, which these flows never produce.

=== FILE: catalog.dfy ===
/**
  The catalog of roles and sub-events the eligibility engine reads.

  Entities reference each other by identifier (an arena of ids), so the
  incompatibility and requirement graphs are plain adjacency lists.  Values the
  repository or the clock computes at request time (the number of unoccupied
  places, whether a role's registration window is open now, whether a role is
  approved right after registration) are snapshotted as fields of the entity.
*/
module Catalog {

  type Id = nat

  /** A capacity of `null` in the source means "unlimited". */
  datatype Capacity = Unlimited | Limited(limit: nat)

  /** The part of a role or a sub-event that the capacity, incompatibility and
      requirement checks look at.  `incompatible` and `required` are the entity's
      collections of direct incompatible and direct required items, in
      collection order. */
  datatype Item = Item(
    name: string,
    capacity: Capacity,
    unoccupied: int,
    incompatible: seq<Id>,
    required: seq<Id>)

  datatype Role = Role(item: Item, registerableNow: bool, approvedAfterRegistration: bool)

  /** Only explicit sub-events take part in the selection checks. */
  datatype Subevent = Subevent(item: Item, explicit: bool)

  /** The persisted catalog: roles and sub-events by id, and each of them
      listed in name order (the order the repository's `...OrderedByName`
      queries return). */
  datatype Repository = Repository(
    roles: map<Id, Role>,
    roleOrder: seq<Id>,
    subevents: map<Id, Subevent>,
    subeventOrder: seq<Id>)

  /** The name-ordered listings enumerate their catalog exactly once. */
  ghost predicate Lists<T>(order: seq<Id>, cat: map<Id, T>)
  {
    && (forall i :: 0 <= i < |order| ==> order[i] in cat)
    && (forall id :: id in cat ==> id in order)
  }

  /** The elements of a collection, for `contains` tests. */
  function Elements(s: seq<Id>): (r: set<Id>)
    ensures forall id :: id in r <==> id in s
  {
    set id | id in s
  }

  /** The ids of `ids` that satisfy `keep`, in their original order. */
  function Filter(ids: seq<Id>, keep: Id -> bool): (r: seq<Id>)
    ensures forall id :: id in r <==> id in ids && keep(id)
    ensures |r| <= |ids|
  {
    if ids == [] then []
    else (if keep(ids[0]) then [ids[0]] else []) + Filter(ids[1..], keep)
  }

  /** The first id that `keep` accepts comes first in the filtered list. */
  lemma {:induction false} FilterFirst(ids: seq<Id>, keep: Id -> bool, i: nat)
    requires i < |ids| && keep(ids[i])
    requires forall j :: 0 <= j < i ==> !keep(ids[j])
    ensures Filter(ids, keep) != [] && Filter(ids, keep)[0] == ids[i]
  {
    if i > 0 {
      assert !keep(ids[0]);
      FilterFirst(ids[1..], keep, i - 1);
    }
  }

  /** Filtering keeps the relative order of the ids it keeps. */
  lemma {:induction false} FilterKeepsOrder(ids: seq<Id>, keep: Id -> bool, p: nat, q: nat)
    requires p < q < |ids| && keep(ids[p]) && keep(ids[q])
    ensures exists i, j :: 0 <= i < j < |Filter(ids, keep)| && Filter(ids, keep)[i] == ids[p] && Filter(ids, keep)[j] == ids[q]
  {
    var r := Filter(ids, keep);
    var rest := Filter(ids[1..], keep);
    var pre := if keep(ids[0]) then [ids[0]] else [];
    assert r == pre + rest;
    if p == 0 {
      assert ids[1..][q - 1] == ids[q];
      var j :| 0 <= j < |rest| && rest[j] == ids[q];
      assert 0 <= 0 < j + 1 < |r| && r[0] == ids[p] && r[j + 1] == ids[q];
    } else {
      assert ids[1..][p - 1] == ids[p] && ids[1..][q - 1] == ids[q];
      FilterKeepsOrder(ids[1..], keep, p - 1, q - 1);
      var i, j :| 0 <= i < j < |rest| && rest[i] == ids[p] && rest[j] == ids[q];
      assert r[|pre| + i] == rest[i];
      assert r[|pre| + j] == rest[j];
    }
  }

  function RoleItems(roles: map<Id, Role>): (cat: map<Id, Item>)
    ensures cat.Keys == roles.Keys
    ensures forall id :: id in roles ==> cat[id] == roles[id].item
  {
    map id | id in roles :: roles[id].item
  }

  function SubeventItems(subevents: map<Id, Subevent>): (cat: map<Id, Item>)
    ensures cat.Keys == subevents.Keys
    ensures forall id :: id in subevents ==> cat[id] == subevents[id].item
  {
    map id | id in subevents :: subevents[id].item
  }

  /** `findRolesByIds` / `findSubeventsByIds`: the requested ids that name an
      entity of the catalog; unknown ids are dropped. */
  function FindByIds<T>(ids: seq<Id>, cat: map<Id, T>): (r: seq<Id>)
    ensures forall id :: id in r <==> id in ids && id in cat
  {
    Filter(ids, id => id in cat)
  }

  /** `findAllExplicitOrderedByName`. */
  function ExplicitSubevents(repo: Repository): (r: seq<Id>)
    ensures forall id :: id in r <==>
      id in repo.subeventOrder && id in repo.subevents && repo.subevents[id].explicit
  {
    Filter(repo.subeventOrder, IsExplicit(repo))
  }

  /** The selection criterion of `findAllExplicitOrderedByName`. */
  function IsExplicit(repo: Repository): Id -> bool
  {
    id => id in repo.subevents && repo.subevents[id].explicit
  }

  /** `countExplicitSubevents() > 0`. */
  predicate HasExplicitSubevents(repo: Repository)
  {
    exists id :: id in repo.subevents && repo.subevents[id].explicit
  }

  /** `findAllExplicitOrderedByName()` lists explicit sub-events in the
      catalog's name order: of two explicit sub-events, the one earlier in
      the catalog order comes earlier in the listing. */
  lemma ExplicitSubeventsKeepNameOrder(repo: Repository, p: nat, q: nat)
    requires p < q < |repo.subeventOrder|
    requires var a, b := repo.subeventOrder[p], repo.subeventOrder[q];
      a in repo.subevents && repo.subevents[a].explicit && b in repo.subevents && repo.subevents[b].explicit
    ensures exists i, j ::
      (0 <= i < j < |ExplicitSubevents(repo)| &&
       ExplicitSubevents(repo)[i] == repo.subeventOrder[p] && ExplicitSubevents(repo)[j] == repo.subeventOrder[q])
  {
    FilterKeepsOrder(repo.subeventOrder, IsExplicit(repo), p, q);
    assert ExplicitSubevents(repo) == Filter(repo.subeventOrder, IsExplicit(repo));
  }

  /** `countExplicitSubevents() > 0` holds exactly when
      `findAllExplicitOrderedByName()` lists something. */
  lemma HasExplicitSubeventsIffListed(repo: Repository)
    requires Lists(repo.subeventOrder, repo.subevents)
    ensures HasExplicitSubevents(repo) <==> ExplicitSubevents(repo) != []
  {
    if HasExplicitSubevents(repo) {
      var id :| id in repo.subevents && repo.subevents[id].explicit;
      assert id in ExplicitSubevents(repo);
    }
    if ExplicitSubevents(repo) != [] {
      var id := ExplicitSubevents(repo)[0];
      assert id in ExplicitSubevents(repo);
    }
  }

  /** `findAllRegisterableNowOrUsersOrderedByName(user)`: roles open for
      registration now or already held, in name order. */
  function RegisterableNowOrHeld(repo: Repository, held: set<Id>): (r: seq<Id>)
    ensures forall id :: id in r <==>
      id in repo.roleOrder && id in repo.roles && (repo.roles[id].registerableNow || id in held)
  {
    Filter(repo.roleOrder, IsRegisterableNowOrHeld(repo, held))
  }

  /** The selection criterion of `findAllRegisterableNowOrUsersOrderedByName`. */
  function IsRegisterableNowOrHeld(repo: Repository, held: set<Id>): Id -> bool
  {
    id => id in repo.roles && (repo.roles[id].registerableNow || id in held)
  }

  /** `findAllRegisterableNowOrUsersOrderedByName(user)` keeps the catalog's
      name order among the roles it lists. */
  lemma RegisterableNowOrHeldKeepsNameOrder(repo: Repository, held: set<Id>, p: nat, q: nat)
    requires p < q < |repo.roleOrder|
    requires var a, b := repo.roleOrder[p], repo.roleOrder[q];
      a in repo.roles && (repo.roles[a].registerableNow || a in held) &&
      b in repo.roles && (repo.roles[b].registerableNow || b in held)
    ensures exists i, j ::
      (0 <= i < j < |RegisterableNowOrHeld(repo, held)| &&
       RegisterableNowOrHeld(repo, held)[i] == repo.roleOrder[p] && RegisterableNowOrHeld(repo, held)[j] == repo.roleOrder[q])
  {
    FilterKeepsOrder(repo.roleOrder, IsRegisterableNowOrHeld(repo, held), p, q);
    assert RegisterableNowOrHeld(repo, held) == Filter(repo.roleOrder, IsRegisterableNowOrHeld(repo, held));
  }

  /** The names of the listed items that exist in the catalog, in list order. */
  function Names(cat: map<Id, Item>, ids: seq<Id>): (r: seq<string>)
    ensures |r| <= |ids|
    ensures (forall i :: 0 <= i < |ids| ==> ids[i] in cat) ==> |r| == |ids|
    ensures ids != [] && ids[0] in cat ==> r != [] && r[0] == cat[ids[0]].name
  {
    if ids == [] then []
    else (if ids[0] in cat then [cat[ids[0]].name] else []) + Names(cat, ids[1..])
  }
}

=== FILE: closure.dfy ===
/**
  The transitive closure of the "requires" relation
  (`getRequiredRolesTransitive` / `getRequiredSubeventsTransitive`).

  The graph maps an id to its direct requirements.  The closure is computed by
  saturation: it starts from the direct requirements and adds successors until
  nothing new appears.  Every step adds at least one id taken from the finite
  set of all edge targets, so the computation ends even when the graph has
  cycles.
*/
module Closure {
  import opened Catalog

  type Graph = map<Id, seq<Id>>

  /** The requirement graph of a catalog. */
  function RequiredGraph(cat: map<Id, Item>): (g: Graph)
    ensures g.Keys == cat.Keys
    ensures forall id :: id in cat ==> g[id] == cat[id].required
  {
    map id | id in cat :: cat[id].required
  }

  /** Every id some id of `s` directly requires. */
  function Successors(g: Graph, s: set<Id>): set<Id>
  {
    set x, y | x in s && x in g && y in g[x] :: y
  }

  /** Every id that is the target of an edge of `g`. */
  function Targets(g: Graph): set<Id>
  {
    set x, y | x in g && y in g[x] :: y
  }

  /** A set that contains the direct requirements of each of its members. */
  ghost predicate Closed(g: Graph, s: set<Id>)
  {
    Successors(g, s) <= s
  }

  lemma SuccessorsAreTargets(g: Graph, s: set<Id>)
    ensures Successors(g, s) <= Targets(g)
  {
  }

  lemma SuccessorsMonotone(g: Graph, s: set<Id>, t: set<Id>)
    requires s <= t
    ensures Successors(g, s) <= Successors(g, t)
  {
  }

  /** Removing more of a finite universe leaves strictly less of it. */
  lemma RemainderShrinks(u: set<Id>, s: set<Id>, t: set<Id>)
    requires s < t <= u
    ensures |u - t| < |u - s|
  {
    var e :| e in t && e !in s;
    var d := (u - s) - (u - t);
    assert e in d;
    assert u - s == (u - t) + d;
    assert (u - t) * d == {};
  }

  /** Adds successors to `s` until it is closed. */
  function Saturate(g: Graph, s: set<Id>): (r: set<Id>)
    requires s <= Targets(g)
    ensures s <= r <= Targets(g)
    ensures Closed(g, r)
    decreases |Targets(g) - s|
  {
    SuccessorsAreTargets(g, s);
    var next := s + Successors(g, s);
    if next == s then s
    else
      RemainderShrinks(Targets(g), s, next);
      Saturate(g, next)
  }

  /** The ids `x` requires directly or indirectly. */
  function RequiredTransitive(g: Graph, x: Id): (r: set<Id>)
    ensures Successors(g, {x}) <= r
    ensures Closed(g, r)
    ensures r <= Targets(g)
  {
    SuccessorsAreTargets(g, {x});
    Saturate(g, Successors(g, {x}))
  }

  /** Saturation adds nothing that a closed bound does not already hold. */
  lemma {:induction false} SaturateLeast(g: Graph, s: set<Id>, bound: set<Id>)
    requires s <= Targets(g)
    requires s <= bound && Closed(g, bound)
    ensures Saturate(g, s) <= bound
    decreases |Targets(g) - s|
  {
    SuccessorsAreTargets(g, s);
    var next := s + Successors(g, s);
    if next != s {
      SuccessorsMonotone(g, s, bound);
      RemainderShrinks(Targets(g), s, next);
      SaturateLeast(g, next, bound);
    }
  }

  /** The closure is the LEAST closed set holding the direct requirements:
      nothing enters it that is not required along some chain of edges. */
  lemma RequiredTransitiveLeast(g: Graph, x: Id, bound: set<Id>)
    requires Successors(g, {x}) <= bound && Closed(g, bound)
    ensures RequiredTransitive(g, x) <= bound
  {
    SuccessorsAreTargets(g, {x});
    SaturateLeast(g, Successors(g, {x}), bound);
  }

  /** A requirement of a requirement is a requirement. */
  lemma RequiredChain(g: Graph, a: Id, b: Id, c: Id)
    requires a in g && b in g[a]
    requires b in g && c in g[b]
    ensures b in RequiredTransitive(g, a) && c in RequiredTransitive(g, a)
  {
    var r := RequiredTransitive(g, a);
    assert b in Successors(g, {a});
    assert c in Successors(g, r);
  }

  /** The closure of `x` is contained in the closure of anything that requires `x`. */
  lemma RequiredTransitiveGrows(g: Graph, a: Id, x: Id)
    requires x in RequiredTransitive(g, a)
    ensures RequiredTransitive(g, x) <= RequiredTransitive(g, a)
  {
    var r := RequiredTransitive(g, a);
    SuccessorsMonotone(g, {x}, r);
    RequiredTransitiveLeast(g, x, r);
  }
}

=== FILE: cms.dfy ===
/**
  The pure logic of a CMS page: its defaults, its role set, role-based
  visibility, and the area-filtered, position-ordered view of its contents.
*/
module Cms {
  import opened Wrappers
  import opened Catalog

  /** A piece of page content, placed in a named area at a position. */
  datatype Content = Content(id: Id, area: string, position: int)

  datatype Page = Page(
    name: string,
    slug: string,
    position: int,
    public: bool,
    roles: seq<Role>,
    contents: seq<Content>)

  /** `PageException`: the area is not one of the known content areas. */
  datatype PageError = AreaNotDefined(area: string)

  /** A new page: no roles, no contents, first in the menu, not public. */
  function NewPage(name: string, slug: string): (p: Page)
    ensures p.name == name && p.slug == slug
    ensures p.roles == [] && p.contents == []
    ensures p.position == 0 && !p.public
  {
    Page(name, slug, 0, false, [], [])
  }

  /** Clears the role collection, then adds each given role. */
  function SetRoles(p: Page, roles: seq<Role>): (q: Page)
    ensures q.roles == roles
    ensures q == p.(roles := q.roles)
  {
    p.(roles := roles)
  }

  /** Appends one role to the collection. */
  function AddRole(p: Page, role: Role): (q: Page)
    ensures q.roles == p.roles + [role]
    ensures q == p.(roles := q.roles)
  {
    p.(roles := p.roles + [role])
  }

  /** Whether some role of `roles` has the given name (the inner loop). */
  function HasRoleNamed(roles: seq<Role>, name: string): (r: bool)
    ensures r <==> exists j :: 0 <= j < |roles| && roles[j].item.name == name
  {
    if roles == [] then false
    else if roles[0].item.name == name then true
    else HasRoleNamed(roles[1..], name)
  }

  /** `isAllowedForRoles`: the page is visible to a user with the given role
      names when one of them names one of the page's roles. */
  function IsAllowedForRoles(p: Page, names: seq<string>): (ok: bool)
    ensures ok <==> exists i, j :: 0 <= i < |names| && 0 <= j < |p.roles| && names[i] == p.roles[j].item.name
    ensures names == [] ==> !ok
  {
    if names == [] then false
    else if HasRoleNamed(p.roles, names[0]) then true
    else
      var rest := IsAllowedForRoles(p, names[1..]);
      assert rest <==> exists i, j :: 1 <= i < |names| && 0 <= j < |p.roles| && names[i] == p.roles[j].item.name by {
        assert forall i :: 1 <= i < |names| ==> names[i] == names[1..][i - 1];
      }
      rest
  }

  ghost predicate SortedByPosition(s: seq<Content>)
  {
    forall i, j :: 0 <= i < j < |s| ==> s[i].position <= s[j].position
  }

  lemma SortedCons(x: Content, s: seq<Content>)
    requires SortedByPosition(s)
    requires forall y :: y in s ==> x.position <= y.position
    ensures SortedByPosition([x] + s)
  {
    var r := [x] + s;
    forall i, j | 0 <= i < j < |r|
      ensures r[i].position <= r[j].position
    {
      assert r[j] == s[j - 1];
      if i > 0 {
        assert r[i] == s[i - 1];
      }
    }
  }

  /** Inserts `c` before the first content of a higher or equal position. */
  function InsertByPosition(c: Content, s: seq<Content>): (r: seq<Content>)
    requires SortedByPosition(s)
    ensures SortedByPosition(r)
    ensures multiset(r) == multiset(s) + multiset{c}
    ensures forall x :: x in r ==> x == c || x in s
  {
    if s == [] then [c]
    else if c.position <= s[0].position then [c] + s
    else
      var rest := InsertByPosition(c, s[1..]);
      assert s == [s[0]] + s[1..];
      assert forall x :: x in s[1..] ==> s[0].position <= x.position;
      SortedCons(s[0], rest);
      [s[0]] + rest
  }

  /** Orders contents by ascending position; equal positions keep their order. */
  function SortByPosition(s: seq<Content>): (r: seq<Content>)
    ensures SortedByPosition(r)
    ensures multiset(r) == multiset(s)
  {
    if s == [] then []
    else
      assert s == [s[0]] + s[1..];
      InsertByPosition(s[0], SortByPosition(s[1..]))
  }

  /** The contents placed in `area`, in collection order. */
  function InArea(s: seq<Content>, area: string): (r: seq<Content>)
    ensures forall c :: c in r <==> c in s && c.area == area
    ensures forall c: Content :: c.area == area ==> multiset(r)[c] == multiset(s)[c]
    ensures forall c: Content :: c.area != area ==> multiset(r)[c] == 0
  {
    if s == [] then []
    else
      assert s == [s[0]] + s[1..];
      (if s[0].area == area then [s[0]] else []) + InArea(s[1..], area)
  }

  /** `getContents`: all contents for no area; an error for an unknown area;
      otherwise the contents of the area ordered by position. */
  function GetContents(p: Page, area: Option<string>, areas: set<string>): (r: Result<seq<Content>, PageError>)
    ensures area.None? ==> r == Ok(p.contents)
    ensures area.Some? && area.value !in areas ==> r == Err(AreaNotDefined(area.value))
    ensures area.Some? && area.value in areas ==>
      && r.Ok?
      && SortedByPosition(r.value)
      && (forall c :: c in r.value <==> c in p.contents && c.area == area.value)
      && multiset(r.value) == multiset(InArea(p.contents, area.value))
  {
    match area
    case None => Ok(p.contents)
    case Some(a) =>
      if a !in areas then Err(AreaNotDefined(a))
      else
        var r := SortByPosition(InArea(p.contents, a));
        assert forall c :: c in r <==> c in multiset(r);
        Ok(r)
  }

  /** `hasContents`: an error for an unknown area, else whether the area holds any content. */
  function HasContents(p: Page, area: string, areas: set<string>): (r: Result<bool, PageError>)
    ensures area !in areas ==> r == Err(AreaNotDefined(area))
    ensures area in areas ==> r.Ok? && (r.value <==> exists c :: c in p.contents && c.area == area)
  {
    if area !in areas then Err(AreaNotDefined(area))
    else Ok(InArea(p.contents, area) != [])
  }

  // ---------------------------------------------------------------------------
  // Properties

  /** `hasContents` answers whether `getContents` of the same area is non-empty,
      and both refuse the same unknown areas. */
  lemma HasContentsIffContentsNonEmpty(p: Page, area: string, areas: set<string>)
    ensures HasContents(p, area, areas).Err? <==> GetContents(p, Some(area), areas).Err?
    ensures area in areas ==>
      (HasContents(p, area, areas).value <==> |GetContents(p, Some(area), areas).value| > 0)
  {
    if area in areas {
      var got := GetContents(p, Some(area), areas).value;
      if HasContents(p, area, areas).value {
        var c :| c in p.contents && c.area == area;
        assert c in got;
      }
    }
  }

  /** A new page is visible to nobody and has no content in any known area. */
  lemma NewPageIsEmpty(name: string, slug: string, names: seq<string>, area: string, areas: set<string>)
    requires area in areas
    ensures !IsAllowedForRoles(NewPage(name, slug), names)
    ensures HasContents(NewPage(name, slug), area, areas) == Ok(false)
    ensures GetContents(NewPage(name, slug), Some(area), areas) == Ok([])
  {
  }

  /** Setting the roles discards the earlier ones: visibility afterwards
      depends only on the roles set. */
  lemma SetRolesForgetsEarlierRoles(p: Page, q: Page, roles: seq<Role>, names: seq<string>)
    ensures IsAllowedForRoles(SetRoles(p, roles), names) == IsAllowedForRoles(SetRoles(q, roles), names)
  {
  }

  /** Adding a role makes the page visible to that role's name and keeps it
      visible to everyone who could see it before. */
  lemma AddRoleGrantsOnlyMore(p: Page, role: Role, names: seq<string>)
    ensures IsAllowedForRoles(AddRole(p, role), [role.item.name])
    ensures IsAllowedForRoles(p, names) ==> IsAllowedForRoles(AddRole(p, role), names)
    ensures IsAllowedForRoles(AddRole(p, role), names) ==>
      IsAllowedForRoles(p, names) || role.item.name in names
  {
    var q := AddRole(p, role);
    assert q.roles[|p.roles|] == role;
    assert forall j :: 0 <= j < |p.roles| ==> q.roles[j] == p.roles[j];
  }
}

=== FILE: eligibility.dfy ===
/**
  The eligibility predicates of the applications grid: capacity, registration
  window, mutual incompatibility and transitive requirement.  Each is a total
  boolean function of a selection; none changes anything.
*/
module Eligibility {
  import opened Wrappers
  import opened Catalog
  import opened Closure

  /** An item with a limited capacity and no free place left. */
  predicate Full(item: Item)
  {
    item.capacity.Limited? && item.unoccupied < 1
  }

  /** The loop shared by `checkRolesCapacities` and `checkSubeventsCapacities`:
      scans the selection and stops at the first full item the user does not
      already hold. */
  function CheckCapacities(cat: map<Id, Item>, selected: seq<Id>, held: set<Id>): (ok: bool)
    requires forall id :: id in selected ==> id in cat
    ensures !ok <==> exists id :: id in selected && Full(cat[id]) && id !in held
  {
    if selected == [] then true
    else if Full(cat[selected[0]]) && selected[0] !in held then false
    else CheckCapacities(cat, selected[1..], held)
  }

  /** `checkRolesCapacities`: a role blocks when it has a limited capacity,
      fewer than one unoccupied place, and the user is not in it. */
  function CheckRolesCapacities(roles: map<Id, Role>, selected: seq<Id>, userRoles: set<Id>): (ok: bool)
    requires forall id :: id in selected ==> id in roles
    ensures !ok <==> (exists id :: id in selected &&
                       roles[id].item.capacity.Limited? && roles[id].item.unoccupied < 1 && id !in userRoles)
  {
    CheckCapacities(RoleItems(roles), selected, userRoles)
  }

  /** `checkSubeventsCapacities`: the same rule for sub-events, where holding
      means that one of the user's applications already has the sub-event. */
  function CheckSubeventsCapacities(subevents: map<Id, Subevent>, selected: seq<Id>, userSubevents: set<Id>): (ok: bool)
    requires forall id :: id in selected ==> id in subevents
    ensures !ok <==> (exists id :: id in selected &&
                       subevents[id].item.capacity.Limited? && subevents[id].item.unoccupied < 1 && id !in userSubevents)
  {
    CheckCapacities(SubeventItems(subevents), selected, userSubevents)
  }

  /** `checkRolesRegisterable`: stops at the first role whose registration
      window is closed and that the user does not hold. */
  function CheckRolesRegisterable(roles: map<Id, Role>, selected: seq<Id>, userRoles: set<Id>): (ok: bool)
    requires forall id :: id in selected ==> id in roles
    ensures !ok <==> exists id :: id in selected && !roles[id].registerableNow && id !in userRoles
  {
    if selected == [] then true
    else if !roles[selected[0]].registerableNow && selected[0] !in userRoles then false
    else CheckRolesRegisterable(roles, selected[1..], userRoles)
  }

  /** Whether the selection contains any of `ids`, stopping at the first hit. */
  function ContainsAny(selection: set<Id>, ids: seq<Id>): (r: bool)
    ensures r <==> exists id :: id in ids && id in selection
  {
    if ids == [] then false
    else if ids[0] in selection then true
    else ContainsAny(selection, ids[1..])
  }

  /** `checkRolesIncompatible` / `checkSubeventsIncompatible`. */
  function CheckIncompatible(cat: map<Id, Item>, selection: set<Id>, test: Id): (ok: bool)
    requires test in cat
    ensures test !in selection ==> ok
    ensures test in selection ==> (ok <==> forall id :: id in cat[test].incompatible ==> id !in selection)
  {
    if test !in selection then true
    else !ContainsAny(selection, cat[test].incompatible)
  }

  /** `checkRolesRequired` / `checkSubeventsRequired`: a selected item passes
      when every item it requires, directly or indirectly, is selected too. */
  function CheckRequired(cat: map<Id, Item>, selection: set<Id>, test: Id): (ok: bool)
    ensures test !in selection ==> ok
    ensures test in selection ==>
      (ok <==> forall id :: id in RequiredTransitive(RequiredGraph(cat), test) ==> id in selection)
    ensures ok && test in selection && test in cat ==>
      forall id :: id in cat[test].required ==> id in selection
  {
    var g := RequiredGraph(cat);
    if test !in selection then true
    else
      assert test in cat ==> forall id :: id in cat[test].required ==> id in Successors(g, {test});
      RequiredTransitive(g, test) <= selection
  }

  /** Both checks one catalog item undergoes in the add and edit loops. */
  predicate Passes(cat: map<Id, Item>, selection: set<Id>, test: Id)
    requires test in cat
  {
    CheckIncompatible(cat, selection, test) && CheckRequired(cat, selection, test)
  }

  datatype Kind = IncompatibleItems | MissingRequirements

  /** The catalog position of the first failing item and the check it failed. */
  datatype Violation = Violation(at: nat, kind: Kind)

  /** One iteration of the loop in `add` and `edit`: the incompatibility test,
      then the requirement test, each guarded by "the item has incompatible
      (required) items at all". */
  function ItemViolation(cat: map<Id, Item>, selection: set<Id>, test: Id): (r: Option<Kind>)
    requires test in cat
    ensures r.None? <==> Passes(cat, selection, test)
    ensures r == Some(IncompatibleItems) <==> !CheckIncompatible(cat, selection, test)
  {
    GuardsAreRedundant(cat, selection, test);
    if |cat[test].incompatible| > 0 && !CheckIncompatible(cat, selection, test) then
      Some(IncompatibleItems)
    else if |RequiredTransitive(RequiredGraph(cat), test)| > 0 && !CheckRequired(cat, selection, test) then
      Some(MissingRequirements)
    else
      None
  }

  /** The loop over the name-ordered catalog in `add` and `edit`; the first
      failure ends the loop. */
  function FirstViolation(cat: map<Id, Item>, order: seq<Id>, selection: set<Id>, from: nat): (r: Option<Violation>)
    requires from <= |order|
    requires forall i :: 0 <= i < |order| ==> order[i] in cat
    ensures r.None? <==> forall i :: from <= i < |order| ==> Passes(cat, selection, order[i])
    ensures r.Some? ==>
      && from <= r.value.at < |order|
      && (forall i :: from <= i < r.value.at ==> Passes(cat, selection, order[i]))
      && !Passes(cat, selection, order[r.value.at])
      && (r.value.kind == IncompatibleItems <==> !CheckIncompatible(cat, selection, order[r.value.at]))
    decreases |order| - from
  {
    if from == |order| then None
    else
      match ItemViolation(cat, selection, order[from])
      case Some(kind) => Some(Violation(from, kind))
      case None => FirstViolation(cat, order, selection, from + 1)
  }

  // ---------------------------------------------------------------------------
  // Properties of the predicates

  /** A selection of items the user already holds never fails the capacity
      check, however full the items are. */
  lemma HeldNeverBlocks(cat: map<Id, Item>, selected: seq<Id>, held: set<Id>)
    requires forall id :: id in selected ==> id in cat
    requires forall id :: id in selected ==> id in held
    ensures CheckCapacities(cat, selected, held)
  {
  }

  /** Items of unlimited capacity always pass the capacity check. */
  lemma UnlimitedNeverBlocks(cat: map<Id, Item>, selected: seq<Id>, held: set<Id>)
    requires forall id :: id in selected ==> id in cat && cat[id].capacity.Unlimited?
    ensures CheckCapacities(cat, selected, held)
  {
  }

  /** Holding more never makes the capacity check fail. */
  lemma CapacitiesMonotoneInHeld(cat: map<Id, Item>, selected: seq<Id>, held: set<Id>, more: set<Id>)
    requires forall id :: id in selected ==> id in cat
    requires held <= more
    requires CheckCapacities(cat, selected, held)
    ensures CheckCapacities(cat, selected, more)
  {
  }

  /** If `a` lists `b` as incompatible and both are selected, testing `a` fails. */
  lemma IncompatiblePairFails(cat: map<Id, Item>, selection: set<Id>, a: Id, b: Id)
    requires a in cat && b in cat[a].incompatible
    requires a in selection && b in selection
    ensures !CheckIncompatible(cat, selection, a)
  {
  }

  /** When `a` and `b` list each other, the pair is refused from either side. */
  lemma MutualIncompatibilityFailsBothWays(cat: map<Id, Item>, selection: set<Id>, a: Id, b: Id)
    requires a in cat && b in cat
    requires b in cat[a].incompatible && a in cat[b].incompatible
    requires a in selection && b in selection
    ensures !CheckIncompatible(cat, selection, a) && !CheckIncompatible(cat, selection, b)
  {
  }

  /** Every catalog item passes the incompatibility check exactly when no
      selected item lists another selected item as incompatible. */
  lemma IncompatibleEverywhereIff(cat: map<Id, Item>, selection: set<Id>)
    ensures (forall t :: t in cat ==> CheckIncompatible(cat, selection, t)) <==>
      (forall a, b :: a in cat && a in selection && b in cat[a].incompatible ==> b !in selection)
  {
  }

  /** Adding items to a selection never makes a passing requirement check fail. */
  lemma RequiredMonotone(cat: map<Id, Item>, selection: set<Id>, larger: set<Id>, test: Id)
    requires selection <= larger
    requires test in selection
    requires CheckRequired(cat, selection, test)
    ensures CheckRequired(cat, larger, test)
  {
  }

  /** If `a` requires `b` and `b` requires `c`, selecting `a` without `c` fails. */
  lemma RequiredChainFails(cat: map<Id, Item>, selection: set<Id>, a: Id, b: Id, c: Id)
    requires a in cat && b in cat[a].required
    requires b in cat && c in cat[b].required
    requires a in selection && c !in selection
    ensures !CheckRequired(cat, selection, a)
  {
    RequiredChain(RequiredGraph(cat), a, b, c);
  }

  /** Every catalog item passes the requirement check exactly when the
      selection holds the direct requirements of each of its members. */
  lemma {:induction false} RequiredEverywhereIff(cat: map<Id, Item>, selection: set<Id>)
    ensures (forall t :: t in cat ==> CheckRequired(cat, selection, t)) <==>
      Closed(RequiredGraph(cat), selection)
  {
    var g := RequiredGraph(cat);
    if forall t :: t in cat ==> CheckRequired(cat, selection, t) {
      forall y | y in Successors(g, selection)
        ensures y in selection
      {
        var x :| x in selection && x in g && y in g[x];
        assert CheckRequired(cat, selection, x);
      }
    }
    if Closed(g, selection) {
      forall t | t in cat
        ensures CheckRequired(cat, selection, t)
      {
        if t in selection {
          SuccessorsMonotone(g, {t}, selection);
          RequiredTransitiveLeast(g, t, selection);
        }
      }
    }
  }

  /** The guards of the catalog loop change nothing: an item with no
      incompatible items, or no requirements, passes the corresponding check. */
  lemma GuardsAreRedundant(cat: map<Id, Item>, selection: set<Id>, test: Id)
    requires test in cat
    ensures |cat[test].incompatible| == 0 ==> CheckIncompatible(cat, selection, test)
    ensures |RequiredTransitive(RequiredGraph(cat), test)| == 0 ==> CheckRequired(cat, selection, test)
  {
  }
}

=== FILE: messages.dfy ===
/**
  The name lists the add and edit flows put into their error messages: the
  offending item's incompatible items, or its transitive requirements, joined
  with ", ".  The translation of the surrounding sentence is not modelled; an
  error carries the two strings handed to the translator.
*/
module Messages {
  import opened Catalog
  import opened Closure

  /** The source's `$first` join: the first name as it is, each later name
      prefixed with ", ". */
  function JoinNames(names: seq<string>, first: bool): (r: string)
    ensures names == [] ==> r == ""
    ensures names != [] && first ==> names[0] <= r
    ensures names != [] && !first ==> ", " + names[0] <= r
  {
    if names == [] then ""
    else (if first then names[0] else ", " + names[0]) + JoinNames(names[1..], false)
  }

  lemma ConcatAssociative(a: string, b: string, c: string)
    ensures (a + b) + c == a + (b + c)
  {
  }

  lemma JoinNamesNotFirst(names: seq<string>)
    ensures JoinNames(names, false) == if names == [] then "" else ", " + JoinNames(names, true)
  {
    if names != [] {
      var head, tail := names[0], JoinNames(names[1..], false);
      assert JoinNames(names, false) == (", " + head) + tail;
      assert JoinNames(names, true) == head + tail;
      ConcatAssociative(", ", head, tail);
    }
  }

  /** The incompatible sub-events of a sub-event, all named (add 230-237, edit 390-397). */
  function IncompatibleNames(cat: map<Id, Item>, test: Id): (r: string)
    requires test in cat
    ensures cat[test].incompatible == [] ==> r == ""
    ensures var ids := cat[test].incompatible;
      ids != [] && ids[0] in cat ==> cat[ids[0]].name <= r
  {
    JoinNames(Names(cat, cat[test].incompatible), true)
  }

  /** The transitive requirements of an item, named in catalog (name) order. */
  function RequiredNames(cat: map<Id, Item>, order: seq<Id>, test: Id): (r: string)
    ensures (forall i :: 0 <= i < |order| ==> order[i] !in RequiredTransitive(RequiredGraph(cat), test)) ==> r == ""
  {
    var required := RequiredTransitive(RequiredGraph(cat), test);
    var listed := Filter(order, id => id in required);
    assert listed != [] ==> listed[0] in listed;
    JoinNames(Names(cat, listed), true)
  }

  /** The list starts with the name of the first item of the catalog order
      that `test` requires, directly or indirectly. */
  lemma RequiredNamesStartWithFirst(cat: map<Id, Item>, order: seq<Id>, test: Id, i: nat)
    requires i < |order| && order[i] in cat
    requires order[i] in RequiredTransitive(RequiredGraph(cat), test)
    requires forall j :: 0 <= j < i ==> order[j] !in RequiredTransitive(RequiredGraph(cat), test)
    ensures cat[order[i]].name <= RequiredNames(cat, order, test)
  {
    var required := RequiredTransitive(RequiredGraph(cat), test);
    var keep := id => id in required;
    FilterFirst(order, keep, i);
  }

  predicate OpenRole(roles: map<Id, Role>, id: Id)
  {
    id in roles && roles[id].registerableNow
  }

  /** The incompatible roles' list as the edit flow builds it: only roles open
      for registration now are named, but the `$first` flag is cleared after
      the first incompatible role whether or not it was named. */
  function IncompatibleRoleNamesAsWritten(roles: map<Id, Role>, ids: seq<Id>, first: bool): (r: string)
    ensures OpenRoles(roles, ids) == [] ==> r == ""
    ensures !first && OpenRoles(roles, ids) != [] ==> ", " <= r
  {
    if ids == [] then ""
    else
      (if OpenRole(roles, ids[0]) then
         (if first then roles[ids[0]].item.name else ", " + roles[ids[0]].item.name)
       else "")
      + IncompatibleRoleNamesAsWritten(roles, ids[1..], false)
  }

  /** The roles of `ids` open for registration now, in list order. */
  function OpenRoles(roles: map<Id, Role>, ids: seq<Id>): (r: seq<Id>)
    ensures forall id :: id in r <==> id in ids && OpenRole(roles, id)
  {
    if ids == [] then []
    else (if OpenRole(roles, ids[0]) then [ids[0]] else []) + OpenRoles(roles, ids[1..])
  }

  /** The incompatible roles open for registration now, joined without a
      stray separator. */
  function IncompatibleRoleNames(roles: map<Id, Role>, ids: seq<Id>): string
  {
    JoinNames(Names(RoleItems(roles), OpenRoles(roles, ids)), true)
  }

  lemma NamesCons(cat: map<Id, Item>, x: Id, rest: seq<Id>)
    ensures Names(cat, [x] + rest) == (if x in cat then [cat[x].name] else []) + Names(cat, rest)
  {
    assert ([x] + rest)[1..] == rest;
  }

  lemma {:induction false} AsWrittenAfterFirst(roles: map<Id, Role>, ids: seq<Id>)
    ensures IncompatibleRoleNamesAsWritten(roles, ids, false) ==
      JoinNames(Names(RoleItems(roles), OpenRoles(roles, ids)), false)
  {
    if ids != [] {
      AsWrittenAfterFirst(roles, ids[1..]);
      var rest := OpenRoles(roles, ids[1..]);
      if OpenRole(roles, ids[0]) {
        NamesCons(RoleItems(roles), ids[0], rest);
        var ns := Names(RoleItems(roles), [ids[0]] + rest);
        assert ns[1..] == Names(RoleItems(roles), rest);
      } else {
        assert OpenRoles(roles, ids) == rest;
      }
    }
  }

  /** How the as-written list relates to the intended one: they agree, except
      that a leading ", " appears when the first incompatible role is closed
      for registration and a later one is open. */
  lemma {:induction false} IncompatibleRoleNamesDiscrepancy(roles: map<Id, Role>, ids: seq<Id>)
    ensures IncompatibleRoleNamesAsWritten(roles, ids, true) ==
      if ids != [] && !OpenRole(roles, ids[0]) && OpenRoles(roles, ids) != []
      then ", " + IncompatibleRoleNames(roles, ids)
      else IncompatibleRoleNames(roles, ids)
  {
    if ids != [] {
      var cat := RoleItems(roles);
      var rest := OpenRoles(roles, ids[1..]);
      var tail := IncompatibleRoleNamesAsWritten(roles, ids[1..], false);
      AsWrittenAfterFirst(roles, ids[1..]);
      assert tail == JoinNames(Names(cat, rest), false);
      if OpenRole(roles, ids[0]) {
        assert OpenRoles(roles, ids) == [ids[0]] + rest;
        NamesCons(cat, ids[0], rest);
        var ns := Names(cat, [ids[0]] + rest);
        assert ns[0] == roles[ids[0]].item.name;
        assert ns[1..] == Names(cat, rest);
        assert IncompatibleRoleNames(roles, ids) == ns[0] + tail;
        assert IncompatibleRoleNamesAsWritten(roles, ids, true) == roles[ids[0]].item.name + tail;
      } else {
        assert OpenRoles(roles, ids) == rest;
        assert IncompatibleRoleNamesAsWritten(roles, ids, true) == "" + tail;
        assert "" + tail == tail;
        JoinNamesNotFirst(Names(cat, rest));
        assert forall i :: 0 <= i < |rest| ==> rest[i] in rest;
        assert forall i :: 0 <= i < |rest| ==> rest[i] in cat;
        assert rest == [] <==> Names(cat, rest) == [];
      }
    }
  }


  /** The intended list starts with the name of the first incompatible role
      that is open for registration. */
  lemma {:induction false} IncompatibleRoleNamesStartWithName(roles: map<Id, Role>, ids: seq<Id>, k: nat)
    requires k < |ids| && OpenRole(roles, ids[k])
    requires forall j :: 0 <= j < k ==> !OpenRole(roles, ids[j])
    ensures roles[ids[k]].item.name <= IncompatibleRoleNames(roles, ids)
  {
    if k == 0 {
      NamesCons(RoleItems(roles), ids[0], OpenRoles(roles, ids[1..]));
    } else {
      assert OpenRoles(roles, ids) == OpenRoles(roles, ids[1..]);
      IncompatibleRoleNamesStartWithName(roles, ids[1..], k - 1);
    }
  }

  /** A concrete list the edit flow gets wrong: role 1 ("A") is closed, role
      2 ("B") is open, and both are incompatible with the tested role. */
  lemma LeadingSeparatorExample()
    ensures
      var a := Role(Item("A", Unlimited, 0, [], []), false, true);
      var b := Role(Item("B", Unlimited, 0, [], []), true, true);
      var roles := map[1 := a, 2 := b];
      IncompatibleRoleNamesAsWritten(roles, [1, 2], true) == ", B" &&
      IncompatibleRoleNames(roles, [1, 2]) == "B"
  {
    var a := Role(Item("A", Unlimited, 0, [], []), false, true);
    var b := Role(Item("B", Unlimited, 0, [], []), true, true);
    var roles := map[1 := a, 2 := b];
    assert !OpenRole(roles, 1) && OpenRole(roles, 2);
    assert OpenRoles(roles, [2]) == [2] by {
      assert [2][1..] == [];
    }
    assert OpenRoles(roles, [1, 2]) == [2] by {
      assert [1, 2][1..] == [2];
    }
    assert Names(RoleItems(roles), [2]) == ["B"];
    assert IncompatibleRoleNamesAsWritten(roles, [2], false) == ", B" by {
      assert [2][1..] == [];
    }
    assert [1, 2][1..] == [2];
  }
}

=== FILE: registration.dfy ===
/**
  The two registration flows of the applications grid: adding sub-events as a
  new, non-first application, and editing the user's roles together with the
  sub-events of an application.  Each flow validates first and changes state
  only when every check passed; a failed check is an error result (the source
  flashes a message and redirects, which ends the request).

  Values computed by services outside this model (the fee, the last
  application order, the maturity date, the variable symbol and the current
  time) are parameters.
*/
module Registration {
  import opened Wrappers
  import opened Catalog
  import opened Eligibility
  import opened Messages

  /** A point in time, as the persistence layer stores it. */
  type Date = int

  datatype User = User(id: Id, roles: set<Id>, approved: bool)

  datatype ApplicationState = WaitingForPayment | Paid | Cancelled

  datatype PaymentMethod = Bank | Other

  datatype Application = Application(
    user: Id,
    subevents: set<Id>,
    fee: int,
    variableSymbol: string,
    order: int,
    applicationDate: Date,
    maturityDate: Date,
    paymentMethod: Option<PaymentMethod>,
    paymentDate: Option<Date>,
    state: ApplicationState,
    first: bool)

  /** The catalog, the acting user and every application by id. */
  datatype State = State(repo: Repository, user: User, applications: map<Id, Application>)

  /** What the services the flows call would answer: `countFee`, the last
      application order, `countMaturityDate`, `generateVariableSymbol` and the
      current time. */
  datatype Services = Services(
    countFee: (set<Id>, set<Id>, bool) -> int,
    lastOrder: int,
    maturityDate: Date,
    variableSymbol: string,
    now: Date)

  /** The error results; each names the flash message the source shows.  The
      incompatibility and requirement errors carry the offending item's name
      and the list of names handed to the translator. */
  datatype Error =
    | RolesCapacityOccupied
    | RoleNotRegisterable
    | IncompatibleRolesSelected(role: string, incompatibleRoles: string)
    | RequiredRolesNotSelected(role: string, requiredRoles: string)
    | SubeventsCapacityOccupied
    | IncompatibleSubeventsSelected(subevent: string, incompatibleSubevents: string)
    | RequiredSubeventsNotSelected(subevent: string, requiredSubevents: string)
      /** edit without explicit sub-events reads variables it never assigned */
    | ApprovalUndefined
      /** edit of an unknown application; the user was already saved */
    | ApplicationNotFound(savedUser: User)

  /** The user's sub-events: the union over all of the user's applications. */
  function UserSubevents(apps: map<Id, Application>, user: Id): (r: set<Id>)
    ensures forall s :: s in r <==> exists a :: a in apps && apps[a].user == user && s in apps[a].subevents
  {
    set a, s | a in apps && apps[a].user == user && s in apps[a].subevents :: s
  }

  /** A zero fee is paid at once; any other fee waits for payment. */
  function StateForFee(fee: int): (s: ApplicationState)
    ensures s == Paid <==> fee == 0
    ensures s != Cancelled
  {
    if fee == 0 then Paid else WaitingForPayment
  }

  /** The error for the first failing explicit sub-event. */
  function SubeventError(repo: Repository, order: seq<Id>, v: Violation): (e: Error)
    requires v.at < |order| && order[v.at] in repo.subevents
    ensures v.kind == IncompatibleItems ==> e.IncompatibleSubeventsSelected? && e.subevent == repo.subevents[order[v.at]].item.name
    ensures v.kind == MissingRequirements ==> e.RequiredSubeventsNotSelected? && e.subevent == repo.subevents[order[v.at]].item.name
  {
    var cat := SubeventItems(repo.subevents);
    var id := order[v.at];
    match v.kind
    case IncompatibleItems => IncompatibleSubeventsSelected(cat[id].name, IncompatibleNames(cat, id))
    case MissingRequirements => RequiredSubeventsNotSelected(cat[id].name, RequiredNames(cat, repo.subeventOrder, id))
  }

  /** The error for the first failing role. */
  function RoleError(repo: Repository, order: seq<Id>, v: Violation): (e: Error)
    requires v.at < |order| && order[v.at] in repo.roles
    ensures v.kind == IncompatibleItems ==> e.IncompatibleRolesSelected? && e.role == repo.roles[order[v.at]].item.name
    ensures v.kind == MissingRequirements ==> e.RequiredRolesNotSelected? && e.role == repo.roles[order[v.at]].item.name
  {
    var cat := RoleItems(repo.roles);
    var id := order[v.at];
    match v.kind
    case IncompatibleItems => IncompatibleRolesSelected(cat[id].name, IncompatibleRoleNames(repo.roles, cat[id].incompatible))
    case MissingRequirements => RequiredRolesNotSelected(cat[id].name, RequiredNames(cat, repo.roleOrder, id))
  }

  /** Every explicit sub-event passes both checks against `selection`. */
  ghost predicate SubeventsCompatible(repo: Repository, selection: set<Id>)
  {
    forall id :: id in ExplicitSubevents(repo) ==> Passes(SubeventItems(repo.subevents), selection, id)
  }

  /** Every role open now or held passes both checks against `selection`. */
  ghost predicate RolesCompatible(repo: Repository, held: set<Id>, selection: set<Id>)
  {
    forall id :: id in RegisterableNowOrHeld(repo, held) ==> Passes(RoleItems(repo.roles), selection, id)
  }

  // ---------------------------------------------------------------------------
  // validation

  /** The sub-event checks both flows run: capacity of the newly selected
      sub-events against what the user holds, then incompatibility and
      requirements of every explicit sub-event against `selection`. */
  function ValidateSubevents(repo: Repository, selected: seq<Id>, held: set<Id>, selection: set<Id>): (r: Option<Error>)
    requires forall id :: id in selected ==> id in repo.subevents
    ensures r == Some(SubeventsCapacityOccupied) <==> !CheckSubeventsCapacities(repo.subevents, selected, held)
    ensures r.None? <==> CheckSubeventsCapacities(repo.subevents, selected, held) && SubeventsCompatible(repo, selection)
    ensures r.Some? ==>
      r.value.SubeventsCapacityOccupied? || r.value.IncompatibleSubeventsSelected? || r.value.RequiredSubeventsNotSelected?
  {
    if !CheckSubeventsCapacities(repo.subevents, selected, held) then
      Some(SubeventsCapacityOccupied)
    else
      var order := ExplicitSubevents(repo);
      match FirstViolation(SubeventItems(repo.subevents), order, selection, 0)
      case Some(v) => Some(SubeventError(repo, order, v))
      case None => None
  }

  /** The role checks of edit: capacity, registration window, then
      incompatibility and requirements of every role open now or held, against
      the selected roles. */
  function ValidateRoles(repo: Repository, selected: seq<Id>, userRoles: set<Id>): (r: Option<Error>)
    requires forall id :: id in selected ==> id in repo.roles
    ensures r == Some(RolesCapacityOccupied) <==> !CheckRolesCapacities(repo.roles, selected, userRoles)
    ensures r == Some(RoleNotRegisterable) <==>
      CheckRolesCapacities(repo.roles, selected, userRoles) && !CheckRolesRegisterable(repo.roles, selected, userRoles)
    ensures r.None? <==>
      && CheckRolesCapacities(repo.roles, selected, userRoles)
      && CheckRolesRegisterable(repo.roles, selected, userRoles)
      && RolesCompatible(repo, userRoles, Elements(selected))
  {
    if !CheckRolesCapacities(repo.roles, selected, userRoles) then
      Some(RolesCapacityOccupied)
    else if !CheckRolesRegisterable(repo.roles, selected, userRoles) then
      Some(RoleNotRegisterable)
    else
      var order := RegisterableNowOrHeld(repo, userRoles);
      match FirstViolation(RoleItems(repo.roles), order, Elements(selected), 0)
      case Some(v) => Some(RoleError(repo, order, v))
      case None => None
  }

  /** A sub-event error other than capacity names the first explicit
      sub-event, in name order, that fails a check, and the check it fails. */
  lemma ValidateSubeventsNamesFirstFailure(repo: Repository, selected: seq<Id>, held: set<Id>, selection: set<Id>)
    requires forall id :: id in selected ==> id in repo.subevents
    ensures var outcome := ValidateSubevents(repo, selected, held, selection);
      outcome.Some? ==>
      var r := outcome.value;
      r != SubeventsCapacityOccupied ==>
      var order := ExplicitSubevents(repo);
      var cat := SubeventItems(repo.subevents);
      && (r.IncompatibleSubeventsSelected? || r.RequiredSubeventsNotSelected?)
      && (exists i :: 0 <= i < |order|
            && (forall j :: 0 <= j < i ==> Passes(cat, selection, order[j]))
            && !Passes(cat, selection, order[i])
            && r.subevent == cat[order[i]].name
            && (r.IncompatibleSubeventsSelected? <==> !CheckIncompatible(cat, selection, order[i])))
  {
    var outcome := ValidateSubevents(repo, selected, held, selection);
    if outcome.Some? && outcome.value != SubeventsCapacityOccupied {
      var r := outcome.value;
      var order := ExplicitSubevents(repo);
      var cat := SubeventItems(repo.subevents);
      var found := FirstViolation(cat, order, selection, 0);
      assert found.Some? && r == SubeventError(repo, order, found.value);
      var i := found.value.at;
      assert r.subevent == cat[order[i]].name;
    }
  }

  /** A role error other than capacity or registration window names the
      first role open now or held, in name order, that fails a check, and the
      check it fails. */
  lemma ValidateRolesNamesFirstFailure(repo: Repository, selected: seq<Id>, userRoles: set<Id>)
    requires forall id :: id in selected ==> id in repo.roles
    ensures var outcome := ValidateRoles(repo, selected, userRoles);
      outcome.Some? ==>
      var r := outcome.value;
      r != RolesCapacityOccupied && r != RoleNotRegisterable ==>
      var order := RegisterableNowOrHeld(repo, userRoles);
      var cat := RoleItems(repo.roles);
      var selection := Elements(selected);
      && (r.IncompatibleRolesSelected? || r.RequiredRolesNotSelected?)
      && (exists i :: 0 <= i < |order|
            && (forall j :: 0 <= j < i ==> Passes(cat, selection, order[j]))
            && !Passes(cat, selection, order[i])
            && r.role == cat[order[i]].name
            && (r.IncompatibleRolesSelected? <==> !CheckIncompatible(cat, selection, order[i])))
  {
    var outcome := ValidateRoles(repo, selected, userRoles);
    if outcome.Some? && outcome.value != RolesCapacityOccupied && outcome.value != RoleNotRegisterable {
      var r := outcome.value;
      var order := RegisterableNowOrHeld(repo, userRoles);
      var cat := RoleItems(repo.roles);
      var selection := Elements(selected);
      var found := FirstViolation(cat, order, selection, 0);
      assert found.Some? && r == RoleError(repo, order, found.value);
      var i := found.value.at;
      assert r.role == cat[order[i]].name;
    }
  }

  // ---------------------------------------------------------------------------
  // add

  /** Adds the requested sub-events as a new application of the acting user.
      `newId` is the id the persistence layer gives the new application. */
  function Add(st: State, requested: seq<Id>, svc: Services, newId: Id): (r: Result<State, Error>)
    requires newId !in st.applications
    // Only the new sub-events are checked for capacity, against what the user already holds.
    ensures var selected := FindByIds(requested, st.repo.subevents);
      r == Err(SubeventsCapacityOccupied) <==>
        !CheckSubeventsCapacities(st.repo.subevents, selected, UserSubevents(st.applications, st.user.id))
    // Incompatibility and requirements are checked on the union with the user's sub-events.
    ensures var selected := FindByIds(requested, st.repo.subevents);
      r.Ok? <==>
        && CheckSubeventsCapacities(st.repo.subevents, selected, UserSubevents(st.applications, st.user.id))
        && SubeventsCompatible(st.repo, UserSubevents(st.applications, st.user.id) + Elements(selected))
    // On success exactly one application appears and nothing else changes.
    ensures r.Ok? ==>
      && r.value.repo == st.repo && r.value.user == st.user
      && r.value.applications.Keys == st.applications.Keys + {newId}
      && (forall a :: a in st.applications ==> r.value.applications[a] == st.applications[a])
    // The new application.
    ensures r.Ok? ==>
      var app := r.value.applications[newId];
      && app.user == st.user.id
      && (forall s :: s in app.subevents <==> s in requested && s in st.repo.subevents)
      && app.fee == svc.countFee(st.user.roles, app.subevents, false)
      && app.order == svc.lastOrder + 1
      && !app.first
      && (app.state == Paid <==> app.fee == 0)
      && app.state != Cancelled
      && app.variableSymbol == svc.variableSymbol
      && app.applicationDate == svc.now && app.maturityDate == svc.maturityDate
      && app.paymentMethod.None? && app.paymentDate.None?
    // A failing check is reported as the sub-event validator reports it.
    ensures var selected := FindByIds(requested, st.repo.subevents);
      var held := UserSubevents(st.applications, st.user.id);
      r.Err? ==> Some(r.error) == ValidateSubevents(st.repo, selected, held, held + Elements(selected))
  {
    var selected := FindByIds(requested, st.repo.subevents);
    var held := UserSubevents(st.applications, st.user.id);
    match ValidateSubevents(st.repo, selected, held, held + Elements(selected))
    case Some(e) => Err(e)
    case None =>
      var subevents := Elements(selected);
      var fee := svc.countFee(st.user.roles, subevents, false);
      var app := Application(st.user.id, subevents, fee, svc.variableSymbol, svc.lastOrder + 1,
                             svc.now, svc.maturityDate, None, None, StateForFee(fee), false);
      Ok(st.(applications := st.applications[newId := app]))
  }

  // ---------------------------------------------------------------------------
  // edit

  /** The approval flag edit computes: it drops to false when some selected
      role is new to the user and needs approval.  The user's current flag is
      not consulted. */
  function ApprovedAfterEdit(roles: map<Id, Role>, selected: seq<Id>, userRoles: set<Id>): (approved: bool)
    requires forall id :: id in selected ==> id in roles
    ensures !approved <==> exists id :: id in selected && !roles[id].approvedAfterRegistration && id !in userRoles
  {
    if selected == [] then true
    else if !roles[selected[0]].approvedAfterRegistration && selected[0] !in userRoles then false
    else ApprovedAfterEdit(roles, selected[1..], userRoles)
  }

  /** The changes edit makes once every check has passed. */
  function ApplyEdit(st: State, appId: Id, selectedRoles: seq<Id>, selectedSubevents: seq<Id>, svc: Services): (r: Result<State, Error>)
    requires forall id :: id in selectedRoles ==> id in st.repo.roles
    ensures r.Ok? <==> appId in st.applications
    // A missing application is reported with the user as already saved.
    ensures r.Err? ==>
      && r.error.ApplicationNotFound?
      && r.error.savedUser.id == st.user.id
      && r.error.savedUser.roles == Elements(selectedRoles)
      && (!r.error.savedUser.approved <==> (exists id :: id in selectedRoles &&
                                              !st.repo.roles[id].approvedAfterRegistration && id !in st.user.roles))
    ensures r.Ok? ==>
      var user := r.value.user;
      && user.id == st.user.id
      && user.roles == Elements(selectedRoles)
      && (!user.approved <==> (exists id :: id in selectedRoles &&
                                 !st.repo.roles[id].approvedAfterRegistration && id !in st.user.roles))
    ensures r.Ok? ==> appId in r.value.applications
    ensures r.Ok? && appId in r.value.applications ==>
      var oldApp := st.applications[appId];
      var app := r.value.applications[appId];
      && app.subevents == Elements(selectedSubevents)
      && app.fee == svc.countFee(r.value.user.roles, app.subevents, true)
      && (app.state == Paid <==> app.fee == 0)
      && app.state != Cancelled
      && app == oldApp.(subevents := app.subevents, fee := app.fee, state := app.state)
    ensures r.Ok? ==>
      && r.value.repo == st.repo
      && r.value.applications.Keys == st.applications.Keys
      && (forall a :: a in st.applications && a != appId ==> r.value.applications[a] == st.applications[a])
  {
    var approved := ApprovedAfterEdit(st.repo.roles, selectedRoles, st.user.roles);
    var user := st.user.(roles := Elements(selectedRoles), approved := approved);
    if appId !in st.applications then
      Err(ApplicationNotFound(user))
    else
      var subevents := Elements(selectedSubevents);
      var fee := svc.countFee(user.roles, subevents, true);
      var app := st.applications[appId].(subevents := subevents, fee := fee, state := StateForFee(fee));
      Ok(State(st.repo, user, st.applications[appId := app]))
  }

  /** The part of edit after the role checks: the sub-event checks (only when
      explicit sub-events exist), then the changes. */
  function EditSubevents(st: State, appId: Id, selectedRoles: seq<Id>, requestedSubevents: seq<Id>, svc: Services): (r: Result<State, Error>)
    requires forall id :: id in selectedRoles ==> id in st.repo.roles
    ensures var subevents := FindByIds(requestedSubevents, st.repo.subevents);
      r.Ok? <==>
        && HasExplicitSubevents(st.repo)
        && CheckSubeventsCapacities(st.repo.subevents, subevents, UserSubevents(st.applications, st.user.id))
        && SubeventsCompatible(st.repo, Elements(subevents))
        && appId in st.applications
    ensures r == Err(ApprovalUndefined) <==> !HasExplicitSubevents(st.repo)
    ensures r.Err? ==> !r.error.RolesCapacityOccupied? && !r.error.RoleNotRegisterable?
    // A failing sub-event check is reported as the validator reports it.
    ensures var subevents := FindByIds(requestedSubevents, st.repo.subevents);
      var outcome := ValidateSubevents(st.repo, subevents, UserSubevents(st.applications, st.user.id), Elements(subevents));
      HasExplicitSubevents(st.repo) && outcome.Some? ==> r == Err(outcome.value)
    // Once every check passes, the outcome (success or a missing application) is that of ApplyEdit.
    ensures var subevents := FindByIds(requestedSubevents, st.repo.subevents);
      && HasExplicitSubevents(st.repo)
      && CheckSubeventsCapacities(st.repo.subevents, subevents, UserSubevents(st.applications, st.user.id))
      && SubeventsCompatible(st.repo, Elements(subevents))
      ==> r == ApplyEdit(st, appId, selectedRoles, subevents, svc)
  {
    if !HasExplicitSubevents(st.repo) then
      Err(ApprovalUndefined)
    else
      var selectedSubevents := FindByIds(requestedSubevents, st.repo.subevents);
      var held := UserSubevents(st.applications, st.user.id);
      match ValidateSubevents(st.repo, selectedSubevents, held, Elements(selectedSubevents))
      case Some(e) => Err(e)
      case None => ApplyEdit(st, appId, selectedRoles, selectedSubevents, svc)
  }

  /** Replaces the acting user's roles and the sub-events of application `appId`. */
  function Edit(st: State, appId: Id, requestedRoles: seq<Id>, requestedSubevents: seq<Id>, svc: Services): (r: Result<State, Error>)
    // Role checks come first, in the source's order.
    ensures var selected := FindByIds(requestedRoles, st.repo.roles);
      r == Err(RolesCapacityOccupied) <==> !CheckRolesCapacities(st.repo.roles, selected, st.user.roles)
    ensures var selected := FindByIds(requestedRoles, st.repo.roles);
      r == Err(RoleNotRegisterable) <==>
        CheckRolesCapacities(st.repo.roles, selected, st.user.roles) &&
        !CheckRolesRegisterable(st.repo.roles, selected, st.user.roles)
    // Success needs every check to pass, explicit sub-events to exist and the application to exist.
    ensures var roles := FindByIds(requestedRoles, st.repo.roles);
      var subevents := FindByIds(requestedSubevents, st.repo.subevents);
      var held := UserSubevents(st.applications, st.user.id);
      r.Ok? <==>
        && CheckRolesCapacities(st.repo.roles, roles, st.user.roles)
        && CheckRolesRegisterable(st.repo.roles, roles, st.user.roles)
        && RolesCompatible(st.repo, st.user.roles, Elements(roles))
        && HasExplicitSubevents(st.repo)
        && CheckSubeventsCapacities(st.repo.subevents, subevents, held)
        && SubeventsCompatible(st.repo, Elements(subevents))
        && appId in st.applications
    ensures r == Err(ApprovalUndefined) ==> !HasExplicitSubevents(st.repo)
    // A failing role check is reported as the role validator reports it.
    ensures var roles := FindByIds(requestedRoles, st.repo.roles);
      var outcome := ValidateRoles(st.repo, roles, st.user.roles);
      outcome.Some? ==> r == Err(outcome.value)
    // Once every check passes, the outcome (success or a missing application)
    // is that of ApplyEdit on the resolved selections.
    ensures var roles := FindByIds(requestedRoles, st.repo.roles);
      var subevents := FindByIds(requestedSubevents, st.repo.subevents);
      var held := UserSubevents(st.applications, st.user.id);
      && CheckRolesCapacities(st.repo.roles, roles, st.user.roles)
      && CheckRolesRegisterable(st.repo.roles, roles, st.user.roles)
      && RolesCompatible(st.repo, st.user.roles, Elements(roles))
      && HasExplicitSubevents(st.repo)
      && CheckSubeventsCapacities(st.repo.subevents, subevents, held)
      && SubeventsCompatible(st.repo, Elements(subevents))
      ==> r == ApplyEdit(st, appId, roles, subevents, svc)
  {
    var selectedRoles := FindByIds(requestedRoles, st.repo.roles);
    match ValidateRoles(st.repo, selectedRoles, st.user.roles)
    case Some(e) => Err(e)
    case None => EditSubevents(st, appId, selectedRoles, requestedSubevents, svc)
  }
}

=== FILE: registration_properties.dfy ===
/**
  Properties that relate several calls of the registration flows, or a flow
  and the state it leaves behind.
*/
module RegistrationProperties {
  import opened Catalog
  import opened Eligibility
  import opened Registration

  /** No two applications share an order number. */
  ghost predicate OrdersUnique(apps: map<Id, Application>)
  {
    forall a, b :: a in apps && b in apps && a != b ==> apps[a].order != apps[b].order
  }

  /** `findLastApplicationOrder` answers at least every stored order. */
  ghost predicate LastOrderBounds(apps: map<Id, Application>, lastOrder: int)
  {
    forall a :: a in apps ==> apps[a].order <= lastOrder
  }

  /** After a successful add the user's sub-events are the old ones plus the
      selection, and that union is the one the checks accepted. */
  lemma AddExtendsUserSubevents(st: State, requested: seq<Id>, svc: Services, newId: Id)
    requires newId !in st.applications
    requires Add(st, requested, svc, newId).Ok?
    ensures var after := Add(st, requested, svc, newId).value;
      && UserSubevents(after.applications, st.user.id) ==
           UserSubevents(st.applications, st.user.id) + after.applications[newId].subevents
      && SubeventsCompatible(st.repo, UserSubevents(after.applications, st.user.id))
  {
    var after := Add(st, requested, svc, newId).value;
    var app := after.applications[newId];
    var before := UserSubevents(st.applications, st.user.id);
    var now := UserSubevents(after.applications, st.user.id);
    forall s | s in now
      ensures s in before + app.subevents
    {
      var a :| a in after.applications && after.applications[a].user == st.user.id && s in after.applications[a].subevents;
      if a != newId {
        assert a in st.applications && st.applications[a] == after.applications[a];
      }
    }
    forall s | s in before
      ensures s in now
    {
      var a :| a in st.applications && st.applications[a].user == st.user.id && s in st.applications[a].subevents;
      assert after.applications[a] == st.applications[a];
    }
    assert app.subevents == Elements(FindByIds(requested, st.repo.subevents));
  }

  /** Add numbers the new application above every existing one, so order
      numbers stay unique. */
  lemma AddKeepsOrdersUnique(st: State, requested: seq<Id>, svc: Services, newId: Id)
    requires newId !in st.applications
    requires OrdersUnique(st.applications) && LastOrderBounds(st.applications, svc.lastOrder)
    requires Add(st, requested, svc, newId).Ok?
    ensures var after := Add(st, requested, svc, newId).value;
      && OrdersUnique(after.applications)
      && (forall a :: a in st.applications ==> st.applications[a].order < after.applications[newId].order)
  {
    var after := Add(st, requested, svc, newId).value;
    forall a, b | a in after.applications && b in after.applications && a != b
      ensures after.applications[a].order != after.applications[b].order
    {
      if a != newId && b != newId {
        assert after.applications[a] == st.applications[a];
        assert after.applications[b] == st.applications[b];
      }
    }
  }

  /** If the union in add were the user's own collection, extended in place
      before the capacity check, every selected sub-event would count as held
      and the capacity check could never fail. */
  lemma AliasedUnionDisablesCapacityCheck(subevents: map<Id, Subevent>, selected: seq<Id>, held: set<Id>)
    requires forall id :: id in selected ==> id in subevents
    ensures CheckSubeventsCapacities(subevents, selected, held + Elements(selected))
  {
  }

  /** Edit scans only roles open now or already held, yet every selected role
      is one of them once the registration-window check has passed. So when
      the window check and the scan pass (as they must for edit to succeed),
      the selection passes the incompatibility and requirement checks of EVERY
      role in the catalog. */
  lemma RoleChecksCoverEveryRole(repo: Repository, selected: seq<Id>, userRoles: set<Id>)
    requires Lists(repo.roleOrder, repo.roles)
    requires forall id :: id in selected ==> id in repo.roles
    requires CheckRolesRegisterable(repo.roles, selected, userRoles)
    requires RolesCompatible(repo, userRoles, Elements(selected))
    ensures forall t :: t in repo.roles ==> Passes(RoleItems(repo.roles), Elements(selected), t)
  {
    var selection := Elements(selected);
    var cat := RoleItems(repo.roles);
    forall t | t in repo.roles
      ensures Passes(cat, selection, t)
    {
      if t in selection {
        assert t in selected;
        assert repo.roles[t].registerableNow || t in userRoles;
        assert t in repo.roleOrder;
        assert t in RegisterableNowOrHeld(repo, userRoles);
      }
    }
  }

  /** The edit flow resets approval from scratch: a user who keeps only roles
      already held ends up approved, even if not approved before. */
  lemma EditApprovesKeptRoles(st: State, appId: Id, requestedRoles: seq<Id>, requestedSubevents: seq<Id>, svc: Services)
    requires Edit(st, appId, requestedRoles, requestedSubevents, svc).Ok?
    requires forall id :: id in requestedRoles ==> id in st.user.roles
    ensures Edit(st, appId, requestedRoles, requestedSubevents, svc).value.user.approved
  {
  }

  /** What a successful edit leaves behind: the user's roles are the selected
      roles and approval is recomputed; the application's sub-events are the
      selected ones, its fee is recomputed from both, and its state follows the
      fee; nothing else changes. */
  lemma EditOutcome(st: State, appId: Id, requestedRoles: seq<Id>, requestedSubevents: seq<Id>, svc: Services)
    requires Edit(st, appId, requestedRoles, requestedSubevents, svc).Ok?
    ensures var after := Edit(st, appId, requestedRoles, requestedSubevents, svc).value;
      && after.repo == st.repo
      && after.user.id == st.user.id
      && (forall id :: id in after.user.roles <==> id in requestedRoles && id in st.repo.roles)
      && (!after.user.approved <==>
            (exists id :: id in after.user.roles && !st.repo.roles[id].approvedAfterRegistration && id !in st.user.roles))
      && appId in st.applications
      && after.applications.Keys == st.applications.Keys
      && (forall a :: a in st.applications && a != appId ==> after.applications[a] == st.applications[a])
  {
  }

  /** After edit the application's fee matches the user's new roles and the
      application's new sub-events, and its state follows the fee. */
  lemma EditFeeMatchesSelection(st: State, appId: Id, requestedRoles: seq<Id>, requestedSubevents: seq<Id>, svc: Services)
    requires Edit(st, appId, requestedRoles, requestedSubevents, svc).Ok?
    ensures var after := Edit(st, appId, requestedRoles, requestedSubevents, svc).value;
      && appId in st.applications && appId in after.applications
      && (forall s :: s in after.applications[appId].subevents <==> s in requestedSubevents && s in st.repo.subevents)
      && after.applications[appId].fee == svc.countFee(after.user.roles, after.applications[appId].subevents, true)
      && (after.applications[appId].state == Paid <==> after.applications[appId].fee == 0)
      && after.applications[appId] == st.applications[appId].(subevents := after.applications[appId].subevents,
           fee := after.applications[appId].fee, state := after.applications[appId].state)
  {
  }
}

=== FILE: wrappers.dfy ===
/** Failure-carrying result types shared by the registration and CMS models. */
module Wrappers {

  /** A value that may be absent (a nullable argument or a lookup miss). */
  datatype Option<+T> = None | Some(value: T)

  /** The outcome of an operation that either succeeds with a value or aborts with an error. */
  datatype Result<+T, +E> = Ok(value: T) | Err(error: E)
}
